=== FILE: README.md ===
# Blocking, comment visibility and registration checks of a Flask blogging app

This project is a Dafny model of the logic core of a small social-blogging
application. Users register, submit link posts, comment on posts and block
other users. Blocking hides comments in both directions.

The model has four modules:

- `Seqs` (`seqs.dfy`): the query building blocks. `Filter` is a SQL `WHERE`.
  `FindFirst` is a query's `.first()`. `SortBy` is an insertion sort on an
  integer key, proved sorted and a permutation; it stands for `ORDER BY`.
- `Models` (`models.dfy`), after `app/models.py`:
  - the `blockers` junction table is a set of (blocker, blocked) pairs;
  - `User.block`, `User.unblock` and `User.is_blocking` are `Block`,
    `Unblock` and `IsBlocking`;
  - `Post.show_comments` is `ShowComments`. It is written the way the query is
    built: the post's comments, `EXCEPT` the comments whose author the viewer
    blocks, `EXCEPT` the comments whose author blocks the viewer, then ordered
    by timestamp. It is proved equal to a reference definition, "comments on
    the post that are visible to the viewer", sorted the same way;
  - `Post.number_of_comments` is `NumberOfComments`.
- `Routes` (`routes.dfy`), after `app/main/routes.py`:
  - the `/block/<username>` guard chain, both as written and corrected
    (see Findings);
  - the stripping of the editor's outer `<p>…</p>` from a comment body, with
    Python's slice semantics written out;
  - comment submission and the `/post/<n>` listing;
  - the newest-first `/index` listing.
- `AuthForms` (`auth_forms.dfy`), after `app/auth/forms.py`: the registration
  form's required-field checks, the email format check, the case-insensitive
  uniqueness checks for username and email, and the repeated-password check.
  Each field's validators run as a chain in WTForms' order; a blank field
  (one that Python's `str.strip()` empties) stops its chain, so it is
  reported only as required. The database's `lower()` is a function
  parameter `lower`, so the results hold for any case folding. `AsciiLower`
  (ASCII-only folding, like SQLite's `lower()`) is one concrete instance. The
  email syntax test of `Email()` is likewise a parameter `isEmail`. The
  validators are pure functions of the user table, so they cannot modify it.

Database state is passed in and returned as values: the user table, the
`blockers` relation and the comment table. The logged-in user is an explicit
parameter. So is the submission time of a comment, which the source takes
from the clock.

## Model

| member | source | states |
|---|---|---|
| Models.IsBlocking | app/models.py:52-53 | the blocker blocks the target exactly when a (blocker, target) row exists: the count of the blocker's rows naming the target is positive |
| Models.Block | app/models.py:44-46 | afterwards the blocker blocks the target; if it already did, the relation is unchanged; every other pair is unchanged |
| Models.Unblock | app/models.py:48-50 | afterwards the blocker no longer blocks the target; if it did not, the relation is unchanged; every other pair is unchanged |
| Models.BlockUnblockIdempotent | app/models.py:44-50 | blocking twice equals blocking once, and unblocking twice equals unblocking once |
| Models.UnblockUndoesBlock | app/models.py:44-50 | unblock undoes a block that was not already there, and block undoes an unblock of a block that was there |
| Models.BlockIsDirected | app/models.py:52-53 | `is_blocking` is directed: for distinct users, `a` blocking `b` leaves whether `b` blocks `a` as it was; a block in an empty table does not create the reverse pair |
| Models.CommentsOn | app/models.py:74 | the query keeps exactly the comments whose post is this post |
| Models.BlockedComments | app/models.py:76-78 | the join keeps exactly the comments whose author the viewer blocks |
| Models.BlockedByComments | app/models.py:80-82 | the join keeps exactly the comments whose author blocks the viewer |
| Models.Except | app/models.py:84-85 | `EXCEPT` keeps exactly the rows of the left side that are absent from the right side |
| Models.ShowComments | app/models.py:73-87 | every comment returned belongs to the post; a comment is returned iff it is on the post, the viewer does not block its author, and its author does not block the viewer; the result is non-decreasing by timestamp |
| Models.ShowCommentsIsVisibilityFilter | app/models.py:73-87 | the two `EXCEPT`s give exactly the reference filter "on the post and visible to the viewer", so the listing equals that filter sorted by timestamp |
| Models.ShowCommentsHasNoDuplicates | app/models.py:83-87 | when comment ids are distinct, no comment is listed twice, matching the duplicate-free result of `EXCEPT` |
| Models.NumberOfComments | app/models.py:89-90 | the count equals the number of positions of the comment table that hold a comment on the post, whoever wrote it and whoever asks |
| Models.NextCommentId | app/models.py:98 | the id given to a new comment is larger than every existing comment's id |
| Models.NumberOfCommentsBoundsShown | app/models.py:89-90 | the count ignores blocking, so it is at least the number of comments any viewer is shown; it is equal for a viewer who blocks no one and whom no one blocks |
| Models.BlockHidesBothWays | app/models.py:75-85 | once `a` blocks `b`, `a` is shown none of `b`'s comments and `b` is shown none of `a`'s, on every post |
| Models.UnblockRestoresVisibility | app/models.py:75-85 | after `a` unblocks `b`, a comment by `b` on the post is shown to `a` exactly when `b` does not block `a` |
| Models.BlockFramesOtherViewers | app/models.py:75-85 | a block or unblock between `a` and `b` leaves every other viewer's listing unchanged, in content and order |
| Routes.FindByUsername | app/main/routes.py:68 | the lookup finds nothing iff no user has that exact username; what it finds is a user with that username |
| Routes.BlockRouteAsWritten | app/main/routes.py:65-88 | the handler as written raises iff no user has the username, so the "does not exist" outcome never occurs |
| Routes.BlockRouteMissingUserWitness | app/main/routes.py:68-79 | with an empty user table, blocking "nobody" raises under the handler as written, while the corrected handler reports a missing user |
| Routes.BlockRoute | app/main/routes.py:65-88 | the handler never fails; a missing user is reported and changes nothing; a standing block is reported and changes nothing; a self-block is refused and never recorded; otherwise the current user afterwards blocks the target; only the pair (current user, target) can change |
| Routes.BlockRouteAgreesWhenUserExists | app/main/routes.py:65-88 | whenever the handler as written responds, the corrected handler gives the same response; on a missing user the corrected handler reports it and changes nothing |
| Routes.BlockRouteKeepsNoSelfBlocks | app/main/routes.py:80-86 | a relation with no self-block still has none after the route |
| Routes.BlockRouteHidesComments | app/main/routes.py:85-87 | after a successful block, the current user and the target see none of each other's comments, and every other viewer's listing is unchanged |
| Routes.WrappedIsLong | app/main/routes.py:32 | a body that starts with `<p>` and ends with `</p>` has at least 7 characters, because the two tags cannot overlap |
| Routes.StripParagraph | app/main/routes.py:32-33 | when the body starts with `<p>` and ends with `</p>`, the stored body is exactly 7 characters shorter and re-wrapping it gives back the body; otherwise the body is stored unchanged |
| Routes.StripUndoesWrap | app/main/routes.py:32-33 | stripping undoes one wrapping, and only one: a doubly wrapped body is stored still wrapped once |
| Routes.PySlice | app/main/routes.py:33 | Python's `s[start:stop]` with a negative stop is the plain subsequence that ends `-stop` characters before the end, whenever the bounds do not cross |
| Routes.SubmitComment | app/main/routes.py:26-38 | a submission to an unknown post stores nothing (the 404 comes first); otherwise it appends one comment by the current user on the post, with the stripped body and the submission time, and keeps all earlier comments; the new comment's id is used by no earlier comment, so distinct ids stay distinct |
| Routes.SubmitCommentEffect | app/main/routes.py:26-38 | a submission raises the post's comment count by one if the post exists and leaves it unchanged otherwise, and leaves other posts' counts alone; the new comment is shown to exactly the viewers who see its author under the blocking rule |
| Routes.ViewPost | app/main/routes.py:26-29 | an unknown post number gives a 404; otherwise the page has the post with that number, and its comments are those on the post visible to the viewer, sorted by timestamp |
| Routes.Index | app/main/routes.py:17-21 | the index lists every post exactly once, in non-increasing timestamp order |
| AuthForms.ValidateUsername | app/auth/forms.py:25-29 | the check fails, with the username-in-use error, iff some existing username equals the candidate after lower-casing both |
| AuthForms.ValidateEmail | app/auth/forms.py:31-35 | the check fails, with the email-in-use error, iff some existing email equals the candidate after lower-casing both |
| AuthForms.RunChain | app/auth/forms.py:17-22 | running a field's validators on a blank value guarded by `DataRequired` gives only the required error, wherever `DataRequired` sits; otherwise the errors already recorded are kept and the error of every failing check in the chain is added |
| AuthForms.ValidateRegistration | app/auth/forms.py:16-35 | a field is reported as required exactly when it is blank; the invalid-email, username-in-use, email-in-use and passwords-differ errors are each reported exactly when their field is filled in and its check fails |
| AuthForms.AcceptedIffEveryCheckPasses | app/auth/forms.py:16-35 | a form has no errors exactly when every field is filled in, the email passes the email syntax test, no existing username or email matches after lower-casing, and the repeated password equals the password |
| AuthForms.BlankRepeatPasswordIsOnlyRequired | app/auth/forms.py:22 | when the repeated password is the form's only fault and it is blank, the only error is that it is required, although it differs from the filled-in password |
| AuthForms.AcceptedRegistrationKeepsUnique | app/auth/forms.py:25-35 | if the existing users are unique by lower-cased username and by lower-cased email, adding a user from a form with no errors keeps them unique |
| AuthForms.CaseVariantsAreRejected | app/auth/forms.py:25-35 | with ASCII folding, "Susan" is refused when "susan" exists, and an email differing only in letter case is refused |

## Left out

- Password hashing (`set_password`, `check_password`): these call Werkzeug's hashing library, which is not part of this model.
- `Post.set_source` and the login redirect check: both rely on library URL parsing.
- AuthForms.CheckEmailFormat: the email syntax rules of WTForms' `Email()` validator are library code, so the model takes them as a parameter `isEmail`; every result holds for any such test.
- The comment and post forms (`CommentForm`, `PostForm`) and their `DataRequired` and `URL` validators are not modelled, so an empty comment body is not rejected in the model.
- Sessions, login and logout, flash message texts, redirects, templates, the `before_request` update of `last_seen`, and the `days` context processor (it reads the clock).
- The `/register` handler: after the validation modelled in AuthForms.ValidateRegistration, it inserts a user built from the form and hashes the password (hashing is left out above).
- The `/login` handler: it only reads the user table, by exact username, and checks the password hash (left out above); it never writes.
- The `/submit` handler: it stores a post whose `source` comes from library URL parsing (left out above).
- The `/profile/<username>` handler: it only reads one user by exact username, with a 404 when there is none.
- Models.Block: the `blockers` table has no unique constraint, so in the database it may hold a row twice. The model's relation is a set, so the `is_blocking` guard in `block` cannot be observed: an unguarded insert would give the same set.
- Models.NextCommentId: the database picks a new primary key; the model uses SQLite's default choice, one more than the largest id (1 for an empty table), except that it never picks an id below 1.
- `app/routes.py` and `app/forms.py`: these are older copies of the blueprint modules, and the model follows the blueprint versions.
- Models.Except: it does not remove duplicate rows the way SQL `EXCEPT` does. Rows are distinct by their primary key, and `Models.ShowCommentsHasNoDuplicates` proves the listing has no duplicates when comment ids are distinct.
- Models.ShowComments: ties in timestamp are ordered by the insertion sort. The database leaves the order of equal timestamps unspecified, so the model fixes one order. The contract states only that timestamps never decrease, not "strictly ascending": the code does not exclude equal timestamps.
- Routes.Index: same as above, non-increasing rather than strictly descending.
- The SQL `lower()` function is a parameter of the validators rather than a fixed definition, because its behaviour depends on the database.
- Timestamps are integers; the `datetime` values of the source are not modelled beyond their order.

## Findings

| source | as written | input that shows it | evidently intended | confidence | as-written member | corrected member |
|---|---|---|---|---|---|---|
| app/main/routes.py:68-79 | `current_user.is_blocking(user)` runs before the `user is None` check, and `is_blocking` reads `user.id` (app/models.py:53), so a missing username raises an exception and the "does not exist" message is never shown | an empty user table and a request to block "nobody" | check for a missing user first, report it, and change nothing | high; not executed | Routes.BlockRouteAsWritten, Routes.BlockRouteMissingUserWitness | Routes.BlockRoute |

=== FILE: auth_forms.dfy ===
/**
 The registration form's own checks: every field must be filled in, the email
 must be well formed, the username and the email must not match an existing
 user's once both sides are lower-cased (the database's `lower()`), and the
 repeated password must equal the password.

 The lower-casing function is a parameter `lower`, so the results hold for
 whatever case folding the database applies; `AsciiLower` is one instance.
 Likewise the email syntax test of WTForms' `Email()` validator is a
 parameter `isEmail`.
 The validators are pure functions of the user table and so cannot change it.
 */
module AuthForms {
  import opened Seqs
  import opened Models

  /** The fields of the registration form that carry `DataRequired`. */
  datatype Field = FirstName | LastName | Username | EmailAddress | Password | RepeatPassword

  datatype FormError = Required(field: Field) | InvalidEmail | UsernameInUse | EmailInUse | PasswordsDiffer

  datatype RegistrationForm = RegistrationForm(
    firstName: string, lastName: string, username: string, email: string,
    password: string, password2: string)

  /** A WTForms field check: it passes, or raises a `ValidationError` with a message. */
  datatype Check = Pass | Fail(error: FormError)

  function UsernameMatches(candidate: string, lower: string -> string): User -> bool {
    (u: User) => lower(u.username) == lower(candidate)
  }

  function EmailMatches(candidate: string, lower: string -> string): User -> bool {
    (u: User) => lower(u.email) == lower(candidate)
  }

  /** `validate_username`: fails iff some user's username equals the candidate ignoring case. */
  function ValidateUsername(users: seq<User>, candidate: string, lower: string -> string): (r: Check)
    ensures r.Fail? <==> exists u :: u in users && lower(u.username) == lower(candidate)
    ensures r.Fail? ==> r.error == UsernameInUse
  {
    match FindFirst(users, UsernameMatches(candidate, lower))
    case Some(_) => Fail(UsernameInUse)
    case None => Pass
  }

  /** `validate_email`: fails iff some user's email equals the candidate ignoring case. */
  function ValidateEmail(users: seq<User>, candidate: string, lower: string -> string): (r: Check)
    ensures r.Fail? <==> exists u :: u in users && lower(u.email) == lower(candidate)
    ensures r.Fail? ==> r.error == EmailInUse
  {
    match FindFirst(users, EmailMatches(candidate, lower))
    case Some(_) => Fail(EmailInUse)
    case None => Pass
  }

  /** The `Email()` check: a value `isEmail` rejects raises "Invalid email address." */
  function CheckEmailFormat(email: string, isEmail: string -> bool): Check {
    if isEmail(email) then Pass else Fail(InvalidEmail)
  }

  /** The `EqualTo('password')` check on the repeated password. */
  function CheckPasswordsMatch(form: RegistrationForm): Check {
    if form.password2 == form.password then Pass else Fail(PasswordsDiffer)
  }

  /** The error a check raised, if any. */
  function Errors(c: Check): set<FormError> {
    match c
    case Pass => {}
    case Fail(e) => {e}
  }

  /**
   The characters Python's `str.strip()` removes: those `str.isspace()`
   accepts, i.e. the ASCII controls tab through carriage return and the file,
   group, record and unit separators, and the Unicode spaces and line and
   paragraph separators.
   */
  predicate IsSpace(ch: char) {
    || '\t' <= ch <= '\r'
    || '\U{001C}' <= ch <= ' '
    || ch == '\U{0085}' || ch == '\U{00A0}' || ch == '\U{1680}'
    || '\U{2000}' <= ch <= '\U{200A}'
    || ch == '\U{2028}' || ch == '\U{2029}' || ch == '\U{202F}' || ch == '\U{205F}' || ch == '\U{3000}'
  }

  /** What `DataRequired` refuses: an empty value, or one that strips to empty. */
  predicate Blank(s: string) {
    forall i :: 0 <= i < |s| ==> IsSpace(s[i])
  }

  function Value(form: RegistrationForm, f: Field): string {
    match f
    case FirstName => form.firstName
    case LastName => form.lastName
    case Username => form.username
    case EmailAddress => form.email
    case Password => form.password
    case RepeatPassword => form.password2
  }

  /**
   A validator in a field's chain: `DataRequired`, or a check that passes or
   raises `ValidationError` (an inline `validate_<field>`, or `EqualTo`).
   */
  datatype Validator = DataRequired | Inline(check: Check)

  /** The errors raised by the checks of `chain`, whatever their order. */
  function CheckErrors(chain: seq<Validator>): set<FormError> {
    set i | 0 <= i < |chain| && chain[i].Inline? && chain[i].check.Fail? :: chain[i].check.error
  }

  /** Splitting off the first validator splits off its error. */
  lemma CheckErrorsCons(chain: seq<Validator>)
    requires |chain| > 0
    ensures CheckErrors(chain) == (if chain[0].Inline? then Errors(chain[0].check) else {}) + CheckErrors(chain[1..])
  {
    var tail := chain[1..];
    forall e | e in CheckErrors(chain)
      ensures e in (if chain[0].Inline? then Errors(chain[0].check) else {}) + CheckErrors(tail)
    {
      var i :| 0 <= i < |chain| && chain[i].Inline? && chain[i].check.Fail? && chain[i].check.error == e;
      if i > 0 {
        assert tail[i - 1] == chain[i];
      }
    }
    forall e | e in CheckErrors(tail)
      ensures e in CheckErrors(chain)
    {
      var i :| 0 <= i < |tail| && tail[i].Inline? && tail[i].check.Fail? && tail[i].check.error == e;
      assert chain[i + 1] == tail[i];
    }
  }

  /**
   How WTForms runs a field's validators: in order, starting from the errors
   `recorded` so far. A failing check raises `ValidationError`, which records
   its error and lets the chain go on. `DataRequired` on a blank value clears
   the recorded errors and raises `StopValidation` with "required", which
   ends the chain. So a blank value under `DataRequired` reports only that it
   is required, wherever `DataRequired` sits in the chain, and otherwise the
   errors of all failing checks are collected.
   */
  function RunChain(chain: seq<Validator>, field: Field, value: string, recorded: set<FormError>): (errors: set<FormError>)
    ensures DataRequired in chain && Blank(value) ==> errors == {Required(field)}
    ensures !(DataRequired in chain && Blank(value)) ==> errors == recorded + CheckErrors(chain)
  {
    if |chain| == 0 then recorded
    else
      CheckErrorsCons(chain);
      assert DataRequired in chain <==> chain[0] == DataRequired || DataRequired in chain[1..];
      match chain[0]
      case DataRequired => if Blank(value) then {Required(field)} else RunChain(chain[1..], field, value, recorded)
      case Inline(c) => RunChain(chain[1..], field, value, recorded + Errors(c))
  }

  /**
   The validators of each registration field, in the order WTForms runs them:
   the declared ones, then the inline `validate_<field>`.
   */
  function Chain(users: seq<User>, form: RegistrationForm, lower: string -> string, isEmail: string -> bool, f: Field): seq<Validator> {
    match f
    case Username => [DataRequired, Inline(ValidateUsername(users, form.username, lower))]
    case EmailAddress =>
      [DataRequired, Inline(CheckEmailFormat(form.email, isEmail)), Inline(ValidateEmail(users, form.email, lower))]
    case RepeatPassword => [DataRequired, Inline(CheckPasswordsMatch(form))]
    case _ => [DataRequired]
  }

  function FieldErrors(users: seq<User>, form: RegistrationForm, lower: string -> string, isEmail: string -> bool, f: Field): set<FormError> {
    RunChain(Chain(users, form, lower, isEmail, f), f, Value(form, f), {})
  }

  /** What one field's chain can report. */
  lemma FieldErrorsReport(users: seq<User>, form: RegistrationForm, lower: string -> string, isEmail: string -> bool, f: Field)
    ensures forall g :: Required(g) in FieldErrors(users, form, lower, isEmail, f) <==> g == f && Blank(Value(form, f))
    ensures UsernameInUse in FieldErrors(users, form, lower, isEmail, f) <==>
              f == Username && !Blank(form.username) && ValidateUsername(users, form.username, lower).Fail?
    ensures InvalidEmail in FieldErrors(users, form, lower, isEmail, f) <==>
              f == EmailAddress && !Blank(form.email) && !isEmail(form.email)
    ensures EmailInUse in FieldErrors(users, form, lower, isEmail, f) <==>
              f == EmailAddress && !Blank(form.email) && ValidateEmail(users, form.email, lower).Fail?
    ensures PasswordsDiffer in FieldErrors(users, form, lower, isEmail, f) <==>
              f == RepeatPassword && !Blank(form.password2) && form.password2 != form.password
  {
    var chain := Chain(users, form, lower, isEmail, f);
    assert chain[0] == DataRequired;
    if !Blank(Value(form, f)) {
      CheckErrorsCons(chain);
      if |chain| >= 2 {
        CheckErrorsCons(chain[1..]);
      }
      if |chain| == 3 {
        CheckErrorsCons(chain[1..][1..]);
        assert chain[1..][1..][1..] == [];
      } else if |chain| == 2 {
        assert chain[1..][1..] == [];
      } else {
        assert chain[1..] == [];
      }
    }
  }

  /**
   The errors the form reports. WTForms runs every field's chain and collects
   the failures, so a field is reported as required exactly when it is blank,
   and a format, uniqueness or equality error is reported exactly when its
   field is not blank and its check fails.
   */
  function ValidateRegistration(users: seq<User>, form: RegistrationForm, lower: string -> string, isEmail: string -> bool): (errors: set<FormError>)
    ensures forall f :: Required(f) in errors <==> Blank(Value(form, f))
    ensures InvalidEmail in errors <==> !Blank(form.email) && !isEmail(form.email)
    ensures UsernameInUse in errors <==>
              !Blank(form.username) && exists u :: u in users && lower(u.username) == lower(form.username)
    ensures EmailInUse in errors <==>
              !Blank(form.email) && exists u :: u in users && lower(u.email) == lower(form.email)
    ensures PasswordsDiffer in errors <==> !Blank(form.password2) && form.password2 != form.password
  {
    FieldErrorsReport(users, form, lower, isEmail, FirstName);
    FieldErrorsReport(users, form, lower, isEmail, LastName);
    FieldErrorsReport(users, form, lower, isEmail, Username);
    FieldErrorsReport(users, form, lower, isEmail, EmailAddress);
    FieldErrorsReport(users, form, lower, isEmail, Password);
    FieldErrorsReport(users, form, lower, isEmail, RepeatPassword);
    FieldErrors(users, form, lower, isEmail, FirstName)
      + FieldErrors(users, form, lower, isEmail, LastName)
      + FieldErrors(users, form, lower, isEmail, Username)
      + FieldErrors(users, form, lower, isEmail, EmailAddress)
      + FieldErrors(users, form, lower, isEmail, Password)
      + FieldErrors(users, form, lower, isEmail, RepeatPassword)
  }

  /** Every field of the form is filled in, and no check of the form fails. */
  predicate PassesEveryCheck(users: seq<User>, form: RegistrationForm, lower: string -> string, isEmail: string -> bool) {
    && (forall f :: !Blank(Value(form, f)))
    && isEmail(form.email)
    && (forall u :: u in users ==> lower(u.username) != lower(form.username))
    && (forall u :: u in users ==> lower(u.email) != lower(form.email))
    && form.password2 == form.password
  }

  lemma AcceptedPassesEveryCheck(users: seq<User>, form: RegistrationForm, lower: string -> string, isEmail: string -> bool)
    requires ValidateRegistration(users, form, lower, isEmail) == {}
    ensures PassesEveryCheck(users, form, lower, isEmail)
  {
    var errors := ValidateRegistration(users, form, lower, isEmail);
    forall f
      ensures !Blank(Value(form, f))
    {
      assert Required(f) !in errors;
    }
    assert Value(form, RepeatPassword) == form.password2;
  }

  lemma PassingEveryCheckIsAccepted(users: seq<User>, form: RegistrationForm, lower: string -> string, isEmail: string -> bool)
    requires PassesEveryCheck(users, form, lower, isEmail)
    ensures ValidateRegistration(users, form, lower, isEmail) == {}
  {
    var errors := ValidateRegistration(users, form, lower, isEmail);
    assert !Blank(Value(form, Username)) && !Blank(Value(form, EmailAddress));
    forall e | e in errors
      ensures false
    {
      match e
      case Required(f) =>
      case InvalidEmail =>
      case UsernameInUse =>
      case EmailInUse =>
      case PasswordsDiffer =>
    }
  }

  /**
   A registration is accepted exactly when every field is filled in, the
   email is well formed, no existing user has the username or the email up to
   `lower`, and the repeated password equals the password.
   */
  lemma AcceptedIffEveryCheckPasses(users: seq<User>, form: RegistrationForm, lower: string -> string, isEmail: string -> bool)
    ensures ValidateRegistration(users, form, lower, isEmail) == {} <==> PassesEveryCheck(users, form, lower, isEmail)
  {
    if ValidateRegistration(users, form, lower, isEmail) == {} {
      AcceptedPassesEveryCheck(users, form, lower, isEmail);
    }
    if PassesEveryCheck(users, form, lower, isEmail) {
      PassingEveryCheckIsAccepted(users, form, lower, isEmail);
    }
  }

  /**
   A form whose only fault is a blank repeated password is reported only as
   missing that field: `EqualTo` never runs on it, although the blank value
   differs from the filled-in password.
   */
  lemma BlankRepeatPasswordIsOnlyRequired(users: seq<User>, form: RegistrationForm, lower: string -> string, isEmail: string -> bool)
    requires Blank(form.password2)
    requires forall f :: f != RepeatPassword ==> !Blank(Value(form, f))
    requires isEmail(form.email)
    requires forall u :: u in users ==> lower(u.username) != lower(form.username) && lower(u.email) != lower(form.email)
    ensures form.password2 != form.password
    ensures ValidateRegistration(users, form, lower, isEmail) == {Required(RepeatPassword)}
  {
    assert !Blank(Value(form, Password)) && !Blank(Value(form, Username)) && !Blank(Value(form, EmailAddress));
    var errors := ValidateRegistration(users, form, lower, isEmail);
    forall e | e in errors
      ensures e == Required(RepeatPassword)
    {
      match e
      case Required(f) =>
      case InvalidEmail =>
      case UsernameInUse =>
      case EmailInUse =>
      case PasswordsDiffer =>
    }
    assert Required(RepeatPassword) in errors;
  }

  /** No two users share a username or an email once lower-cased. */
  predicate UniqueIgnoringCase(users: seq<User>, lower: string -> string) {
    forall i, j :: 0 <= i < j < |users| ==>
      lower(users[i].username) != lower(users[j].username) && lower(users[i].email) != lower(users[j].email)
  }

  /**
   A form that validates can be inserted as a new user without breaking
   case-insensitive uniqueness of usernames and emails.
   */
  lemma AcceptedRegistrationKeepsUnique(users: seq<User>, form: RegistrationForm, id: UserId, lower: string -> string,
                                          isEmail: string -> bool)
    requires UniqueIgnoringCase(users, lower)
    requires ValidateRegistration(users, form, lower, isEmail) == {}
    ensures UniqueIgnoringCase(users + [User(id, form.username, form.email)], lower)
  {
    var users' := users + [User(id, form.username, form.email)];
    forall i, j | 0 <= i < j < |users'|
      ensures lower(users'[i].username) != lower(users'[j].username)
      ensures lower(users'[i].email) != lower(users'[j].email)
    {
      if j == |users| {
        assert users'[i] in users;
      }
    }
  }

  // ---------------------------------------------------------------------------
  // ASCII case folding, as SQLite's lower() does it
  // ---------------------------------------------------------------------------

  function LowerChar(ch: char): char {
    if 'A' <= ch <= 'Z' then (ch as int + 32) as char else ch
  }

  /** Folds `A`..`Z` to `a`..`z` and leaves every other character alone. */
  function AsciiLower(s: string): (r: string)
    ensures |r| == |s|
    ensures forall i :: 0 <= i < |s| ==> r[i] == LowerChar(s[i])
  {
    if |s| == 0 then [] else [LowerChar(s[0])] + AsciiLower(s[1..])
  }

  /** Two strings that differ only in the case of ASCII letters fold to the same string. */
  lemma SameAfterFolding(a: string, b: string)
    requires |a| == |b|
    requires forall i :: 0 <= i < |a| ==> LowerChar(a[i]) == LowerChar(b[i])
    ensures AsciiLower(a) == AsciiLower(b)
  {
  }

  /** Registering "Susan" is refused once "susan" exists, and likewise for an email in capitals. */
  lemma CaseVariantsAreRejected()
    ensures ValidateUsername([User(1, "susan", "s@x.io")], "Susan", AsciiLower).Fail?
    ensures ValidateEmail([User(1, "susan", "s@x.io")], "S@X.IO", AsciiLower).Fail?
  {
    var u := User(1, "susan", "s@x.io");
    SameAfterFolding(u.username, "Susan");
    SameAfterFolding(u.email, "S@X.IO");
    assert u in [u];
  }
}

=== FILE: models.dfy ===
/**
 The persistent entities of the blogging application and the two pieces of
 logic attached to them: the directed "blocks" relation between users
 (`User.block`, `User.unblock`, `User.is_blocking`) and the per-viewer
 comment listing of a post (`Post.show_comments`, `Post.number_of_comments`).

 Database tables become values: users, posts and comments are records, the
 `comment` table is a sequence of records, and the `blockers` junction table is
 a set of (blocker, blocked) pairs. The logged-in user that `show_comments`
 reads from the session is an explicit `viewer` parameter.
 */
module Models {
  import opened Seqs

  type UserId = int
  type PostId = int

  /** The `blockers` junction table: one (blocker_id, blocked_id) pair per block. */
  type Relation = set<(UserId, UserId)>

  datatype User = User(id: UserId, username: string, email: string)

  datatype Post = Post(id: PostId, title: string, url: string, timestamp: int, author: UserId)

  datatype Comment = Comment(id: int, body: string, timestamp: int, author: UserId, post: PostId)

  // ---------------------------------------------------------------------------
  // The blocks relation
  // ---------------------------------------------------------------------------

  /** `blocker.blocked`: the rows whose blocker is `blocker`. */
  function BlockedRows(rel: Relation, blocker: UserId): set<(UserId, UserId)> {
    set p | p in rel && p.0 == blocker
  }

  /**
   `blocker.is_blocking(blocked)`: the rows of `blocker.blocked` whose
   blocked id is `blocked` are counted, and the count is positive.
   */
  function IsBlocking(rel: Relation, blocker: UserId, blocked: UserId): (b: bool)
    ensures b <==> (blocker, blocked) in rel
  {
    var rows := set p | p in BlockedRows(rel, blocker) && p.1 == blocked;
    assert rows == if (blocker, blocked) in rel then {(blocker, blocked)} else {};
    |rows| > 0
  }

  /** No user blocks themself. */
  predicate NoSelfBlocks(rel: Relation) {
    forall p :: p in rel ==> p.0 != p.1
  }

  /** `blocker.block(blocked)`: adds the row unless `is_blocking` already holds. */
  function Block(rel: Relation, blocker: UserId, blocked: UserId): (r: Relation)
    ensures IsBlocking(r, blocker, blocked)
    ensures IsBlocking(rel, blocker, blocked) ==> r == rel
    ensures forall a, b :: (a, b) != (blocker, blocked) ==> (IsBlocking(r, a, b) <==> IsBlocking(rel, a, b))
  {
    if IsBlocking(rel, blocker, blocked) then rel else rel + {(blocker, blocked)}
  }

  /** `blocker.unblock(blocked)`: removes the row when `is_blocking` holds. */
  function Unblock(rel: Relation, blocker: UserId, blocked: UserId): (r: Relation)
    ensures !IsBlocking(r, blocker, blocked)
    ensures !IsBlocking(rel, blocker, blocked) ==> r == rel
    ensures forall a, b :: (a, b) != (blocker, blocked) ==> (IsBlocking(r, a, b) <==> IsBlocking(rel, a, b))
  {
    if IsBlocking(rel, blocker, blocked) then rel - {(blocker, blocked)} else rel
  }

  /** Blocking twice is blocking once, and likewise for unblocking. */
  lemma BlockUnblockIdempotent(rel: Relation, a: UserId, b: UserId)
    ensures Block(Block(rel, a, b), a, b) == Block(rel, a, b)
    ensures Unblock(Unblock(rel, a, b), a, b) == Unblock(rel, a, b)
  {
  }

  /** Unblocking undoes a block that was not there before, and vice versa. */
  lemma UnblockUndoesBlock(rel: Relation, a: UserId, b: UserId)
    ensures !IsBlocking(rel, a, b) ==> Unblock(Block(rel, a, b), a, b) == rel
    ensures IsBlocking(rel, a, b) ==> Block(Unblock(rel, a, b), a, b) == rel
  {
  }

  /**
   The relation is directed: `a` blocking `b` says nothing about `b` blocking
   `a`, and from the empty table a single block leaves the reverse pair absent.
   */
  lemma BlockIsDirected(rel: Relation, a: UserId, b: UserId)
    requires a != b
    ensures IsBlocking(Block(rel, a, b), b, a) <==> IsBlocking(rel, b, a)
    ensures IsBlocking(Block({}, a, b), a, b) && !IsBlocking(Block({}, a, b), b, a)
  {
  }

  // ---------------------------------------------------------------------------
  // Comment listing
  // ---------------------------------------------------------------------------

  /** Neither the viewer blocks the author of `c` nor the author blocks the viewer. */
  predicate Visible(rel: Relation, viewer: UserId, c: Comment) {
    !IsBlocking(rel, viewer, c.author) && !IsBlocking(rel, c.author, viewer)
  }

  function ByTimestamp(c: Comment): int {
    c.timestamp
  }

  /** The row tests of the queries in `show_comments`, one per `filter`/`join` condition. */
  function OnPost(post: PostId): Comment -> bool {
    (c: Comment) => c.post == post
  }

  function AuthorBlockedBy(rel: Relation, viewer: UserId): Comment -> bool {
    (c: Comment) => IsBlocking(rel, viewer, c.author)
  }

  function AuthorBlocks(rel: Relation, viewer: UserId): Comment -> bool {
    (c: Comment) => IsBlocking(rel, c.author, viewer)
  }

  function NotIn(rows: seq<Comment>): Comment -> bool {
    (c: Comment) => c !in rows
  }

  function VisibleOnPost(rel: Relation, post: PostId, viewer: UserId): Comment -> bool {
    (c: Comment) => c.post == post && Visible(rel, viewer, c)
  }

  /** `Comment.query.filter_by(post_id=post)`. */
  function CommentsOn(cs: seq<Comment>, post: PostId): (r: seq<Comment>)
    ensures forall c :: c in r <==> c in cs && c.post == post
  {
    Filter(cs, OnPost(post))
  }

  /** The rows of `all` that join a blockers row (viewer, author): authors the viewer blocks. */
  function BlockedComments(rel: Relation, all: seq<Comment>, viewer: UserId): (r: seq<Comment>)
    ensures forall c :: c in r <==> c in all && IsBlocking(rel, viewer, c.author)
  {
    Filter(all, AuthorBlockedBy(rel, viewer))
  }

  /** The rows of `all` that join a blockers row (author, viewer): authors who block the viewer. */
  function BlockedByComments(rel: Relation, all: seq<Comment>, viewer: UserId): (r: seq<Comment>)
    ensures forall c :: c in r <==> c in all && IsBlocking(rel, c.author, viewer)
  {
    Filter(all, AuthorBlocks(rel, viewer))
  }

  /** SQL `a EXCEPT b` on rows: the rows of `a` that do not occur in `b`. */
  function Except(a: seq<Comment>, b: seq<Comment>): (r: seq<Comment>)
    ensures forall c :: c in r <==> c in a && c !in b
  {
    Filter(a, NotIn(b))
  }

  /**
   `post.show_comments()` as seen by `viewer`: the post's comments, minus
   those whose author the viewer blocks, minus those whose author blocks the
   viewer, ordered by ascending timestamp.
   */
  function ShowComments(rel: Relation, cs: seq<Comment>, post: PostId, viewer: UserId): (r: seq<Comment>)
    ensures forall c :: c in r <==> c in cs && c.post == post && Visible(rel, viewer, c)
    ensures SortedBy(r, ByTimestamp)
  {
    var all := CommentsOn(cs, post);
    var shown := Except(Except(all, BlockedComments(rel, all, viewer)), BlockedByComments(rel, all, viewer));
    SortByMembers(shown, ByTimestamp);
    SortBy(shown, ByTimestamp)
  }

  /** `post.number_of_comments()`: every comment on the post, blocked or not. */
  function NumberOfComments(cs: seq<Comment>, post: PostId): (n: nat)
    ensures n == |set i | 0 <= i < |cs| && cs[i].post == post|
  {
    FilterCountsMatches(cs, OnPost(post));
    assert MatchingIndices(cs, OnPost(post)) == set i | 0 <= i < |cs| && cs[i].post == post;
    |CommentsOn(cs, post)|
  }

  /** The post's comments a viewer may see, in table order: the reference definition. */
  function VisibleOn(rel: Relation, cs: seq<Comment>, post: PostId, viewer: UserId): seq<Comment> {
    Filter(cs, VisibleOnPost(rel, post, viewer))
  }

  /**
   The two `EXCEPT`s of `show_comments` compute exactly the reference filter
   "on the post and visible to the viewer", so both sort to the same listing.
   */
  lemma {:induction false} ShowCommentsIsVisibilityFilter(rel: Relation, cs: seq<Comment>, post: PostId, viewer: UserId)
    ensures ShowComments(rel, cs, post, viewer) == SortBy(VisibleOn(rel, cs, post, viewer), ByTimestamp)
  {
    var all := CommentsOn(cs, post);
    var notBlk := (c: Comment) => !IsBlocking(rel, viewer, c.author);
    var notBlkBy := (c: Comment) => !IsBlocking(rel, c.author, viewer);
    FilterCongruent(all, NotIn(BlockedComments(rel, all, viewer)), notBlk);
    var once := Filter(all, notBlk);
    FilterCongruent(once, NotIn(BlockedByComments(rel, all, viewer)), notBlkBy);
    FilterTwice(all, notBlk, notBlkBy);
    FilterTwice(cs, OnPost(post), And(notBlk, notBlkBy));
    FilterCongruent(cs, And(OnPost(post), And(notBlk, notBlkBy)), VisibleOnPost(rel, post, viewer));
  }

  /** The reference listing is the post's comments narrowed to the visible ones. */
  lemma VisibleOnNarrowsCommentsOn(rel: Relation, cs: seq<Comment>, post: PostId, viewer: UserId)
    ensures VisibleOn(rel, cs, post, viewer) == Filter(CommentsOn(cs, post), (c: Comment) => Visible(rel, viewer, c))
  {
    var vis := (c: Comment) => Visible(rel, viewer, c);
    FilterTwice(cs, OnPost(post), vis);
    FilterCongruent(cs, And(OnPost(post), vis), VisibleOnPost(rel, post, viewer));
  }

  /**
   `number_of_comments` ignores blocking, so it bounds what any viewer sees,
   and equals it for a viewer who neither blocks nor is blocked by anyone.
   */
  lemma {:induction false} NumberOfCommentsBoundsShown(rel: Relation, cs: seq<Comment>, post: PostId, viewer: UserId)
    ensures |ShowComments(rel, cs, post, viewer)| <= NumberOfComments(cs, post)
    ensures (forall u :: !IsBlocking(rel, viewer, u) && !IsBlocking(rel, u, viewer)) ==>
              |ShowComments(rel, cs, post, viewer)| == NumberOfComments(cs, post)
  {
    ShowCommentsIsVisibilityFilter(rel, cs, post, viewer);
    VisibleOnNarrowsCommentsOn(rel, cs, post, viewer);
    var all := CommentsOn(cs, post);
    var shown := Filter(all, (c: Comment) => Visible(rel, viewer, c));
    assert |ShowComments(rel, cs, post, viewer)| == |shown|;
    if forall u :: !IsBlocking(rel, viewer, u) && !IsBlocking(rel, u, viewer) {
      FilterKeepsAll(all, (c: Comment) => Visible(rel, viewer, c));
    }
  }

  /**
   Two-sided exclusion: once `a` blocks `b`, `a` sees none of `b`'s comments
   and `b` sees none of `a`'s, on every post.
   */
  lemma BlockHidesBothWays(rel: Relation, cs: seq<Comment>, post: PostId, a: UserId, b: UserId)
    ensures forall c :: c in ShowComments(Block(rel, a, b), cs, post, a) ==> c.author != b
    ensures forall c :: c in ShowComments(Block(rel, a, b), cs, post, b) ==> c.author != a
  {
  }

  /**
   After `a` unblocks `b`, a comment of `b` on the post is shown to `a`
   exactly when `b` does not block `a` (or `a` and `b` are the same user).
   */
  lemma UnblockRestoresVisibility(rel: Relation, cs: seq<Comment>, post: PostId, a: UserId, b: UserId, c: Comment)
    requires c in cs && c.post == post && c.author == b
    ensures c in ShowComments(Unblock(rel, a, b), cs, post, a) <==> !IsBlocking(rel, b, a) || a == b
  {
  }

  /**
   A block or unblock between `a` and `b` changes nothing for any third
   viewer: they are shown the same comments in the same order as before.
   */
  lemma {:induction false} BlockFramesOtherViewers(rel: Relation, cs: seq<Comment>, post: PostId, a: UserId, b: UserId, viewer: UserId)
    requires viewer != a && viewer != b
    ensures ShowComments(Block(rel, a, b), cs, post, viewer) == ShowComments(rel, cs, post, viewer)
    ensures ShowComments(Unblock(rel, a, b), cs, post, viewer) == ShowComments(rel, cs, post, viewer)
  {
    ShowCommentsIsVisibilityFilter(rel, cs, post, viewer);
    var blocked, unblocked := Block(rel, a, b), Unblock(rel, a, b);
    ShowCommentsIsVisibilityFilter(blocked, cs, post, viewer);
    ShowCommentsIsVisibilityFilter(unblocked, cs, post, viewer);
    forall c: Comment
      ensures VisibleOnPost(blocked, post, viewer)(c) == VisibleOnPost(rel, post, viewer)(c)
      ensures VisibleOnPost(unblocked, post, viewer)(c) == VisibleOnPost(rel, post, viewer)(c)
    {
      assert (viewer, c.author) != (a, b) && (c.author, viewer) != (a, b);
    }
    FilterCongruent(cs, VisibleOnPost(blocked, post, viewer), VisibleOnPost(rel, post, viewer));
    FilterCongruent(cs, VisibleOnPost(unblocked, post, viewer), VisibleOnPost(rel, post, viewer));
  }

  /** Comment ids are distinct (the `comment` table's primary key). */
  predicate UniqueIds(cs: seq<Comment>) {
    forall i, j :: 0 <= i < j < |cs| ==> cs[i].id != cs[j].id
  }

  /**
   The id the database assigns to the next comment row: one more than the
   largest id in the table, or 1 for an empty table (SQLite's choice of a new
   integer primary key). It is fresh: larger than every existing id.
   */
  function NextCommentId(cs: seq<Comment>): (id: int)
    ensures forall c :: c in cs ==> c.id < id
  {
    if |cs| == 0 then 1
    else
      var rest := NextCommentId(cs[1..]);
      assert forall c :: c in cs ==> c == cs[0] || c in cs[1..];
      if cs[0].id + 1 > rest then cs[0].id + 1 else rest
  }

  lemma {:induction false} UniqueIdsOccurOnce(cs: seq<Comment>)
    requires UniqueIds(cs)
    ensures forall c :: multiset(cs)[c] <= 1
  {
    if |cs| > 0 {
      assert cs == [cs[0]] + cs[1..];
      UniqueIdsOccurOnce(cs[1..]);
      assert cs[0] !in cs[1..];
    }
  }

  /**
   With distinct comment ids every row is shown at most once, so the model
   agrees with the duplicate-free result of SQL `EXCEPT`.
   */
  lemma {:induction false} ShowCommentsHasNoDuplicates(rel: Relation, cs: seq<Comment>, post: PostId, viewer: UserId)
    requires UniqueIds(cs)
    ensures forall c :: multiset(ShowComments(rel, cs, post, viewer))[c] <= 1
  {
    UniqueIdsOccurOnce(cs);
    ShowCommentsIsVisibilityFilter(rel, cs, post, viewer);
  }
}

=== FILE: routes.dfy ===
/**
 The request handlers of the main blueprint that carry logic of their own:
 the `/block/<username>` guard chain, the `<p>` stripping of a submitted
 comment body, the comment submission and listing of `/post/<n>`, and the
 newest-first post listing of `/index`.

 Each handler is a function from the current database state (user table,
 blockers relation, comment table) and the request's inputs to the response
 and the new state. The logged-in user is an explicit parameter; flash
 messages become a response tag, and redirects and templates are not modelled.
 */
module Routes {
  import opened Seqs
  import opened Models

  // ---------------------------------------------------------------------------
  // /block/<username>
  // ---------------------------------------------------------------------------

  /** Which flash message the block route answers with. */
  datatype BlockOutcome = AlreadyBlocking | NoSuchUser | SelfBlock | NowBlocking

  /**
   A redirect back to the referring page with the new blockers relation, or
   an unhandled exception (an HTTP 500 response) that commits nothing.
   */
  datatype BlockResponse = Redirect(outcome: BlockOutcome, rel: Relation) | ServerError

  function HasUsername(name: string): User -> bool {
    (u: User) => u.username == name
  }

  /** `User.query.filter_by(username=name).first()`. */
  function FindByUsername(users: seq<User>, name: string): (r: Option<User>)
    ensures r.None? <==> forall u :: u in users ==> u.username != name
    ensures r.Some? ==> r.value in users && r.value.username == name
  {
    FindFirst(users, HasUsername(name))
  }

  /**
   The block route in the order the handler checks things: `is_blocking` is
   asked first, and it reads the `id` of the looked-up user, so a username
   with no user raises before the "does not exist" branch is reached.
   */
  function BlockRouteAsWritten(rel: Relation, users: seq<User>, current: UserId, username: string): (r: BlockResponse)
    ensures (forall u :: u in users ==> u.username != username) <==> r.ServerError?
    ensures !(r.Redirect? && r.outcome == NoSuchUser)
  {
    match FindByUsername(users, username)
    case None => ServerError
    case Some(user) =>
      if IsBlocking(rel, current, user.id) then Redirect(AlreadyBlocking, rel)
      else if user.id == current then Redirect(SelfBlock, rel)
      else Redirect(NowBlocking, Block(rel, current, user.id))
  }

  /**
   A concrete request that shows the discrepancy: with an empty user table a
   request to block "nobody" fails with a server error under the handler as
   written, where the corrected handler reports the missing user.
   */
  lemma BlockRouteMissingUserWitness()
    ensures BlockRouteAsWritten({}, [], 1, "nobody") == ServerError
    ensures BlockRoute({}, [], 1, "nobody") == Redirect(NoSuchUser, {})
  {
  }

  /**
   The block route with the missing-user check moved before `is_blocking`,
   which is what its branches evidently intend: a missing user is reported,
   a standing block is reported, a self-block is refused, and otherwise the
   current user now blocks the target. Only the pair (current, target) can
   change.
   */
  function BlockRoute(rel: Relation, users: seq<User>, current: UserId, username: string): (r: BlockResponse)
    ensures r.Redirect?
    ensures (forall u :: u in users ==> u.username != username) ==> r == Redirect(NoSuchUser, rel)
    ensures r.outcome != NowBlocking ==> r.rel == rel
    ensures FindByUsername(users, username).Some? ==>
              var target := FindByUsername(users, username).value;
              && (IsBlocking(rel, current, target.id) ==> r.outcome == AlreadyBlocking)
              && (!IsBlocking(rel, current, target.id) && target.id == current ==> r.outcome == SelfBlock)
              && (r.outcome == NowBlocking <==> !IsBlocking(rel, current, target.id) && target.id != current)
              && IsBlocking(r.rel, current, target.id) == (target.id != current || IsBlocking(rel, current, target.id))
              && forall a, b :: (a, b) != (current, target.id) ==> (IsBlocking(r.rel, a, b) <==> IsBlocking(rel, a, b))
    ensures IsBlocking(r.rel, current, current) ==> IsBlocking(rel, current, current)
  {
    match FindByUsername(users, username)
    case None => Redirect(NoSuchUser, rel)
    case Some(user) =>
      if IsBlocking(rel, current, user.id) then Redirect(AlreadyBlocking, rel)
      else if user.id == current then Redirect(SelfBlock, rel)
      else Redirect(NowBlocking, Block(rel, current, user.id))
  }

  /**
   Wherever the handler as written answers at all, the corrected handler
   answers the same; they differ only on a missing user.
   */
  lemma BlockRouteAgreesWhenUserExists(rel: Relation, users: seq<User>, current: UserId, username: string)
    ensures BlockRouteAsWritten(rel, users, current, username).Redirect? ==>
              BlockRouteAsWritten(rel, users, current, username) == BlockRoute(rel, users, current, username)
    ensures BlockRouteAsWritten(rel, users, current, username).ServerError? ==>
              BlockRoute(rel, users, current, username) == Redirect(NoSuchUser, rel)
  {
  }

  /** The block route never records a self-block, so a relation without one stays without one. */
  lemma {:induction false} BlockRouteKeepsNoSelfBlocks(rel: Relation, users: seq<User>, current: UserId, username: string)
    requires NoSelfBlocks(rel)
    ensures NoSelfBlocks(BlockRoute(rel, users, current, username).rel)
  {
    var r := BlockRoute(rel, users, current, username);
    if r.outcome == NowBlocking {
      var user := FindByUsername(users, username).value;
      assert r.rel == rel + {(current, user.id)};
    }
  }

  /**
   After a successful block neither side sees the other's comments on any
   post, while no third viewer's listing changes.
   */
  lemma {:induction false} BlockRouteHidesComments(rel: Relation, users: seq<User>, current: UserId, username: string,
                                                   target: User, cs: seq<Comment>, post: PostId, viewer: UserId)
    requires FindByUsername(users, username) == Some(target)
    requires BlockRoute(rel, users, current, username).outcome == NowBlocking
    ensures forall c :: c in ShowComments(BlockRoute(rel, users, current, username).rel, cs, post, current) ==> c.author != target.id
    ensures forall c :: c in ShowComments(BlockRoute(rel, users, current, username).rel, cs, post, target.id) ==> c.author != current
    ensures viewer != current && viewer != target.id ==>
              ShowComments(BlockRoute(rel, users, current, username).rel, cs, post, viewer) == ShowComments(rel, cs, post, viewer)
  {
    assert BlockRoute(rel, users, current, username).rel == Block(rel, current, target.id);
    BlockHidesBothWays(rel, cs, post, current, target.id);
    if viewer != current && viewer != target.id {
      BlockFramesOtherViewers(rel, cs, post, current, target.id, viewer);
    }
  }

  // ---------------------------------------------------------------------------
  // /post/<n>: stripping the editor's outer <p> ... </p>
  // ---------------------------------------------------------------------------

  predicate StartsWith(s: string, prefix: string) {
    |prefix| <= |s| && s[..|prefix|] == prefix
  }

  predicate EndsWith(s: string, suffix: string) {
    |suffix| <= |s| && s[|s| - |suffix|..] == suffix
  }

  /** Python's normalisation of a slice bound: negative counts from the end, then clamp. */
  function SliceBound(i: int, n: nat): (k: nat)
    ensures k <= n
    ensures 0 <= i <= n ==> k == i
    ensures i < 0 && 0 <= i + n ==> k == i + n
  {
    if i < 0 then (if i + n < 0 then 0 else i + n)
    else if i > n then n
    else i
  }

  /** Python's `s[start:stop]`: empty when the normalised bounds cross. */
  function PySlice<T>(s: seq<T>, start: int, stop: int): (r: seq<T>)
    ensures |r| <= |s|
    ensures 0 <= start <= |s| + stop && stop < 0 ==> r == s[start..|s| + stop]
  {
    var a, b := SliceBound(start, |s|), SliceBound(stop, |s|);
    if a < b then s[a..b] else []
  }

  /** The editor's wrapping of a comment in one paragraph. */
  function Wrap(body: string): string {
    "<p>" + body + "</p>"
  }

  /** A body that starts with `<p>` and ends with `</p>` has at least 7 characters: the tags cannot overlap. */
  lemma WrappedIsLong(body: string)
    requires StartsWith(body, "<p>") && EndsWith(body, "</p>")
    ensures |body| >= 7
  {
    var n := |body|;
    assert body[1] == 'p' && body[2] == '>';
    assert body[n - 4] == '<' && body[n - 3] == '/';
  }

  /**
   The body a comment is stored with: `body[3:-4]` when it starts with `<p>`
   and ends with `</p>`, otherwise the body unchanged.
   */
  function StripParagraph(body: string): (r: string)
    ensures StartsWith(body, "<p>") && EndsWith(body, "</p>") ==> |body| >= 7 && |r| == |body| - 7 && body == Wrap(r)
    ensures !(StartsWith(body, "<p>") && EndsWith(body, "</p>")) ==> r == body
  {
    if StartsWith(body, "<p>") && EndsWith(body, "</p>") then
      WrappedIsLong(body);
      var r := PySlice(body, 3, -4);
      assert body == body[..3] + r + body[|body| - 4..];
      r
    else body
  }

  /**
   Stripping undoes the editor's wrapping, and only one outer pair is removed
   per submission: a doubly wrapped body is stored still wrapped once.
   */
  lemma {:induction false} StripUndoesWrap(body: string)
    ensures StripParagraph(Wrap(body)) == body
    ensures StripParagraph(Wrap(Wrap(body))) == Wrap(body)
  {
    var w := Wrap(body);
    assert w[..3] == "<p>";
    assert w[|w| - 4..] == "</p>";
    var r := StripParagraph(w);
    assert w == Wrap(r);
    assert r == w[3..|w| - 4];
    assert w[3..|w| - 4] == body;
    var ww := Wrap(w);
    assert ww[..3] == "<p>";
    assert ww[|ww| - 4..] == "</p>";
    var rr := StripParagraph(ww);
    assert ww == Wrap(rr);
    assert rr == ww[3..|ww| - 4];
    assert ww[3..|ww| - 4] == w;
  }

  // ---------------------------------------------------------------------------
  // /post/<n>: comment submission and listing
  // ---------------------------------------------------------------------------

  function HasPostId(n: PostId): Post -> bool {
    (p: Post) => p.id == n
  }

  predicate PostExists(posts: seq<Post>, n: PostId) {
    exists p :: p in posts && p.id == n
  }

  /**
   A valid comment form posted to `/post/<n>`. The handler first looks the
   post up with `first_or_404`, so for an unknown post nothing is stored;
   otherwise it stores one new comment by the current user on the post, with
   the stripped body, the submission time `now`, and the id the database
   assigns to the new row.
   */
  function SubmitComment(posts: seq<Post>, cs: seq<Comment>, author: UserId, post: PostId, body: string, now: int): (r: seq<Comment>)
    ensures !PostExists(posts, post) ==> r == cs
    ensures PostExists(posts, post) ==> |r| == |cs| + 1 && r[..|cs|] == cs
    ensures PostExists(posts, post) ==>
              r[|cs|].post == post && r[|cs|].author == author && r[|cs|].timestamp == now
    ensures PostExists(posts, post) ==> r[|cs|].body == StripParagraph(body)
    ensures PostExists(posts, post) ==> forall c :: c in cs ==> c.id != r[|cs|].id
    ensures UniqueIds(cs) ==> UniqueIds(r)
  {
    match FindFirst(posts, HasPostId(post))
    case None => cs
    case Some(p) => cs + [Comment(NextCommentId(cs), StripParagraph(body), now, author, p.id)]
  }

  /**
   Submitting a comment to an existing post raises its comment count by one,
   leaves every other post's count alone, and the new comment is listed for
   exactly the viewers who see its author under the blocking rule. A
   submission to an unknown post changes no count.
   */
  lemma {:induction false} SubmitCommentEffect(posts: seq<Post>, rel: Relation, cs: seq<Comment>, author: UserId,
                                               post: PostId, body: string, now: int, other: PostId, viewer: UserId)
    requires other != post
    ensures NumberOfComments(SubmitComment(posts, cs, author, post, body, now), post)
              == NumberOfComments(cs, post) + (if PostExists(posts, post) then 1 else 0)
    ensures NumberOfComments(SubmitComment(posts, cs, author, post, body, now), other) == NumberOfComments(cs, other)
    ensures PostExists(posts, post) ==>
              var r := SubmitComment(posts, cs, author, post, body, now);
              r[|cs|] in ShowComments(rel, r, post, viewer) <==>
                !IsBlocking(rel, viewer, author) && !IsBlocking(rel, author, viewer)
  {
    var r := SubmitComment(posts, cs, author, post, body, now);
    if PostExists(posts, post) {
      var c := r[|cs|];
      assert r == cs + [c];
      FilterSnoc(cs, c, OnPost(post));
      FilterSnoc(cs, c, OnPost(other));
    }
  }

  /** What `/post/<n>` renders: a 404 for an unknown post, otherwise the post and its listing for the viewer. */
  datatype PostPage = NotFound | Page(post: Post, comments: seq<Comment>)

  /** `Post.query.filter_by(id=n).first_or_404()` followed by `post.show_comments()`. */
  function ViewPost(posts: seq<Post>, rel: Relation, cs: seq<Comment>, viewer: UserId, n: PostId): (r: PostPage)
    ensures r.NotFound? <==> forall p :: p in posts ==> p.id != n
    ensures r.Page? ==> r.post in posts && r.post.id == n
    ensures r.Page? ==> forall c :: c in r.comments <==> c in cs && c.post == n && Visible(rel, viewer, c)
    ensures r.Page? ==> SortedBy(r.comments, ByTimestamp)
  {
    match FindFirst(posts, HasPostId(n))
    case None => NotFound
    case Some(p) => Page(p, ShowComments(rel, cs, p.id, viewer))
  }

  // ---------------------------------------------------------------------------
  // /index
  // ---------------------------------------------------------------------------

  /** The sort key that puts later posts first. */
  function NewestFirst(p: Post): int {
    -p.timestamp
  }

  /** `Post.query.order_by(Post.timestamp.desc()).all()`: every post, newest first. */
  function Index(posts: seq<Post>): (r: seq<Post>)
    ensures multiset(r) == multiset(posts)
    ensures forall i, j :: 0 <= i < j < |r| ==> r[i].timestamp >= r[j].timestamp
  {
    var r := SortBy(posts, NewestFirst);
    assert forall i, j :: 0 <= i < j < |r| ==> NewestFirst(r[i]) <= NewestFirst(r[j]);
    r
  }
}

=== FILE: seqs.dfy ===
/**
 Sequence utilities the queries of the application are built from:
 `Filter` (a SQL `WHERE`), `FindFirst` (a query's `.first()`), and an
 insertion sort `SortBy` (an `ORDER BY` on an integer key).
 */
module Seqs {

  datatype Option<T> = None | Some(value: T)

  /** The keys of `s` never decrease from left to right. */
  predicate SortedBy<T>(s: seq<T>, key: T -> int) {
    forall i, j :: 0 <= i < j < |s| ==> key(s[i]) <= key(s[j])
  }

  /** The elements of `s` that satisfy `keep`, in their original order. */
  function Filter<T(!new)>(s: seq<T>, keep: T -> bool): (r: seq<T>)
    ensures |r| <= |s|
    ensures forall x :: x in r <==> x in s && keep(x)
    ensures multiset(r) <= multiset(s)
  {
    if |s| == 0 then []
    else
      assert s == [s[0]] + s[1..];
      if keep(s[0]) then [s[0]] + Filter(s[1..], keep)
      else Filter(s[1..], keep)
  }

  /** The conjunction of two tests. */
  function And<T>(f: T -> bool, g: T -> bool): T -> bool {
    x => f(x) && g(x)
  }

  /** A filter that keeps every element of `s` returns `s`. */
  lemma {:induction false} FilterKeepsAll<T(!new)>(s: seq<T>, keep: T -> bool)
    requires forall x :: x in s ==> keep(x)
    ensures Filter(s, keep) == s
  {
    if |s| > 0 {
      assert forall x :: x in s[1..] ==> x in s;
      FilterKeepsAll(s[1..], keep);
    }
  }

  /** The positions of `s` whose element satisfies `keep`. */
  function MatchingIndices<T>(s: seq<T>, keep: T -> bool): set<int> {
    set i | 0 <= i < |s| && keep(s[i])
  }

  /** Extending `s` by one element adds at most its position to the matching positions. */
  lemma MatchingIndicesSnoc<T>(s: seq<T>, x: T, keep: T -> bool)
    ensures MatchingIndices(s + [x], keep) == MatchingIndices(s, keep) + (if keep(x) then {|s|} else {})
  {
    var t := s + [x];
    forall i | 0 <= i < |s|
      ensures t[i] == s[i]
    {
    }
  }

  /** A filter keeps one element per matching position of `s`. */
  lemma {:induction false} FilterCountsMatches<T(!new)>(s: seq<T>, keep: T -> bool)
    ensures |Filter(s, keep)| == |MatchingIndices(s, keep)|
    decreases |s|
  {
    if |s| > 0 {
      var init, last := s[..|s| - 1], s[|s| - 1];
      assert s == init + [last];
      FilterCountsMatches(init, keep);
      FilterSnoc(init, last, keep);
      MatchingIndicesSnoc(init, last, keep);
      assert |init| !in MatchingIndices(init, keep);
    }
  }

  /** Two filters that agree on every element of `s` select the same subsequence. */
  lemma {:induction false} FilterCongruent<T(!new)>(s: seq<T>, f: T -> bool, g: T -> bool)
    requires forall x :: x in s ==> f(x) == g(x)
    ensures Filter(s, f) == Filter(s, g)
  {
    if |s| > 0 {
      assert forall x :: x in s[1..] ==> x in s;
      FilterCongruent(s[1..], f, g);
    }
  }

  /** Filtering twice is filtering once by the conjunction. */
  lemma {:induction false} FilterTwice<T(!new)>(s: seq<T>, f: T -> bool, g: T -> bool)
    ensures Filter(Filter(s, f), g) == Filter(s, And(f, g))
  {
    if |s| > 0 {
      FilterTwice(s[1..], f, g);
      if f(s[0]) {
        assert Filter(s, f) == [s[0]] + Filter(s[1..], f);
        assert Filter(s, f)[1..] == Filter(s[1..], f);
      }
    }
  }

  /** Filtering a sequence extended by one element extends the filtered sequence by at most that element. */
  lemma {:induction false} FilterSnoc<T(!new)>(s: seq<T>, x: T, keep: T -> bool)
    ensures Filter(s + [x], keep) == Filter(s, keep) + (if keep(x) then [x] else [])
  {
    if |s| == 0 {
      assert s + [x] == [x];
      assert [x][1..] == [];
    } else {
      assert (s + [x])[0] == s[0];
      assert (s + [x])[1..] == s[1..] + [x];
      FilterSnoc(s[1..], x, keep);
    }
  }

  /**
   The first element of `s` that satisfies `matches`, or `None` when there is
   none.
   */
  function FindFirst<T(!new)>(s: seq<T>, matches: T -> bool): (r: Option<T>)
    ensures r.None? <==> forall x :: x in s ==> !matches(x)
    ensures r.Some? ==> exists i :: 0 <= i < |s| && s[i] == r.value && forall j :: 0 <= j < i ==> !matches(s[j])
    ensures r.Some? ==> r.value in s && matches(r.value)
  {
    if |s| == 0 then None
    else if matches(s[0]) then Some(s[0])
    else
      var r := FindFirst(s[1..], matches);
      assert forall x :: x in s ==> x == s[0] || x in s[1..];
      if r.Some? then FirstInTailIsFirst(s, matches, r.value); r else r
  }

  /** A first match in the tail of `s` is a first match in `s` when the head does not match. */
  lemma FirstInTailIsFirst<T>(s: seq<T>, matches: T -> bool, v: T)
    requires |s| > 0 && !matches(s[0])
    requires exists i :: 0 <= i < |s[1..]| && s[1..][i] == v && forall j :: 0 <= j < i ==> !matches(s[1..][j])
    ensures exists i :: 0 <= i < |s| && s[i] == v && forall j :: 0 <= j < i ==> !matches(s[j])
  {
    var tail := s[1..];
    var i :| 0 <= i < |tail| && tail[i] == v && forall j :: 0 <= j < i ==> !matches(tail[j]);
    assert s[i + 1] == v;
    forall j | 0 <= j < i + 1
      ensures !matches(s[j])
    {
      if j > 0 {
        assert s[j] == tail[j - 1];
      }
    }
  }

  /** Every element of the sorted `s` has a key no smaller than `lo`. */
  lemma InsertBound<T(!new)>(x: T, s: seq<T>, key: T -> int, lo: int, r: seq<T>)
    requires forall y :: y in s ==> lo <= key(y)
    requires lo <= key(x)
    requires multiset(r) == multiset(s) + multiset{x}
    ensures forall y :: y in r ==> lo <= key(y)
  {
    forall y | y in r
      ensures lo <= key(y)
    {
      assert y in multiset(r);
      if y != x {
        assert y in multiset(s);
      }
    }
  }

  /** Inserts `x` into the sorted `s` before the first element whose key is not smaller. */
  function Insert<T(!new)>(x: T, s: seq<T>, key: T -> int): (r: seq<T>)
    requires SortedBy(s, key)
    ensures SortedBy(r, key)
    ensures multiset(r) == multiset(s) + multiset{x}
  {
    if |s| == 0 then [x]
    else if key(x) <= key(s[0]) then [x] + s
    else
      assert s == [s[0]] + s[1..];
      var rest := Insert(x, s[1..], key);
      InsertBound(x, s[1..], key, key(s[0]), rest);
      assert forall j :: 0 < j < |[s[0]] + rest| ==> ([s[0]] + rest)[j] in rest;
      [s[0]] + rest
  }

  /**
   An insertion sort: a permutation of `s` whose keys never decrease.
   */
  function SortBy<T(!new)>(s: seq<T>, key: T -> int): (r: seq<T>)
    ensures SortedBy(r, key)
    ensures multiset(r) == multiset(s)
    ensures |r| == |s|
  {
    if |s| == 0 then []
    else
      assert s == [s[0]] + s[1..];
      Insert(s[0], SortBy(s[1..], key), key)
  }

  /** Sorting preserves membership in both directions. */
  lemma SortByMembers<T(!new)>(s: seq<T>, key: T -> int)
    ensures forall x :: x in SortBy(s, key) <==> x in s
  {
    var r := SortBy(s, key);
    forall x
      ensures x in r <==> x in s
    {
      assert x in r <==> x in multiset(r);
      assert x in s <==> x in multiset(s);
    }
  }
}
